=== FILE: README.md ===
# Poem line-matching puzzle — a Dafny model of the `Game` selection engine

The puzzle shuffles the characters of a poem into a grid. The player taps
characters to spell each line; a correct line is drawn as a green curve through
its tokens and its tokens lock; the poem is done when every line is spelled.
This project models the core of `Game` in `scripts/game.js`:

- `board.dfy` (module `Board`): the character pool (`content.join('')`), the
  longest line length (`Math.max`), the Fisher–Yates `shuffleArray` with its
  random choices as an input, and the 4/5 grid column rule of `setupGameBoard`.
- `selection.dfy` (module `Selection`): one poem session. `Click` is
  `handleCharacterClick` with `validateLine`, `handleCorrectLine` and
  `handleWrongLine`; `ShakeEnds` is the 500 ms timer of a rejected token;
  `Frame` is `redrawLines` viewed as a function of the state; `Run` drives a
  session through a sequence of taps and timer events.
- `geometry.dfy` (module `Geometry`): `drawLine` as a list of cubic Bézier
  segments, and the draw order of `redrawLines`; `Option` is the result of a
  `drawLine` that draws nothing.
- `puzzle.dfy` (module `Puzzle`): the poem catalogue, the constructor,
  `loadNextPoem` / `resetGame`, and taps and shake timers routed to the current
  poem's session.
- `scenarios.dfy` (module `Scenarios`): worked sessions on the poem "ab" / "ba".

Tokens are indices into the board's glyph sequence. A token's class list is
abstracted to a `Mark`: `Selected` (in `selectedChars`), `Shaking` (rejected,
still carrying the `selected` class until its timer fires, so a tap on it finds
`indexOf == -1` and does nothing), `Locked` (the `completed` class) and
`Unselected`. Token centres (`getCharacterCenter`) are a `Layout` function
passed to each tap, because they depend on live page layout.

Completion is keyed by line text, as in `validateLine`
(`completedLines.has(line)`), and the completion signal fires when the number
of completed texts equals the number of lines. A consequence proved here: a
poem with a repeated line can never reach that condition. A per-line-instance
check would behave differently; the model follows the code. A rejected
selection is emptied at once, but `handleWrongLine` keeps each rejected token's
`selected` class until its 500 ms timer fires (game.js:156-159), so the model
keeps it `Shaking` until the `ShakeOver` event of that token (`ShakeEnds`).

## Model

| member | source | states |
|---|---|---|
| Board.MaxLen | scripts/game.js:15 | the result bounds every line length and is the length of some line |
| Board.Concat | scripts/game.js:48 | `content.join('')`: every line's characters, line after line (its length is proved in ConcatLength, its contents in ConcatHoldsEveryLine) |
| Board.ConcatLength | scripts/game.js:48 | the joined characters number exactly the sum of the line lengths |
| Board.Columns | scripts/game.js:54-55 | the grid has 4 columns exactly when there are at most 16 tokens, otherwise 5 |
| Board.ConcatHoldsEveryLine | scripts/game.js:48 | every character of every line is on the board's source string |
| Board.Swap | scripts/game.js:69 | the swap exchanges positions i and j and leaves every other position alone |
| Board.SwapPermutes | scripts/game.js:69 | one swap keeps the multiset of items |
| Board.ShuffleFrom | scripts/game.js:67-70 | the remaining swap steps keep the length |
| Board.ShuffleFromPermutes | scripts/game.js:67-70 | the remaining swap steps keep the multiset of items |
| Board.Shuffled | scripts/game.js:66-72 | the shuffled order is a permutation of the input (same length, same multiset) |
| Board.ShuffleArray | scripts/game.js:66-72 | the in-place array loop yields exactly the functional shuffle for the same random choices, hence a permutation |
| Board.SetupBoard | scripts/game.js:47-56 | the board has one token per poem character (count and multiset) and 4 columns iff at most 16 tokens, else 5 |
| Geometry.Curve | scripts/game.js:195-211 | a segment ends at the current point; both control points sit at the x midpoint, at the previous and the current point's height, between the two x values |
| Geometry.Segments | scripts/game.js:191-212 | n points give n−1 segments, segment i joining point i to point i+1 |
| Geometry.DrawLine | scripts/game.js:180-212 | no path for fewer than two points; otherwise the path starts at the first point with one segment per consecutive pair |
| Geometry.DrawLineVisitsEveryPoint | scripts/game.js:187-211 | the path's vertices are exactly the input points, so it starts at the first and ends at the last |
| Geometry.Drawable | scripts/game.js:169-171 | the paths that produce a stroke are the stored ones with at least two points, in order, none added |
| Geometry.DrawableMembers | scripts/game.js:169-171 | a stored path produces a stroke exactly when it has at least two points |
| Geometry.DrawCompleted | scripts/game.js:168-171 | one green stroke per drawable stored path, stroke i being exactly `drawLine` of the i-th drawable path (its Bézier segments, not just its vertices), in completion order |
| Geometry.DrawCompletedAppend | scripts/game.js:169-171 | drawing two runs of stored paths in turn is drawing their concatenation |
| Geometry.DrawCompletedSkipsShort | scripts/game.js:180-182 | a stored one-point path (a one-character line) changes nothing in the drawing |
| Geometry.DrawCompletedKeepsOrder | scripts/game.js:168-171 | when every stored path has two or more points, all are drawable and stroke i traces completed path i (completion order) |
| Geometry.Redraw | scripts/game.js:164-177 | the frame is exactly the completed strokes followed by one blue stroke, present iff the live selection has more than one point, and exactly `drawLine` of it |
| Selection.Text | scripts/game.js:100 | the candidate text has one character per selected token, character k being token k's glyph, in tap order |
| Selection.Positions | scripts/game.js:118 | one centre per selected token, centre k being the layout's centre of token k, in tap order (the same map feeds the live path at line 175) |
| Selection.IsOpenLine | scripts/game.js:111-113 | `validateLine`: the text is one of the poem's lines and not yet in the completed set (its meaning is proved in OpenLineIffUnfinished) |
| Selection.Finished | scripts/game.js:133 | the completion condition: as many completed texts as lines (its meaning is proved in FinishedIffAllLines) |
| Selection.MarkAll | scripts/game.js:124-127 | every given token gets the new mark and every other token keeps its mark |
| Selection.IndexOf | scripts/game.js:91-92 | -1 iff the token is absent, otherwise the first position holding it |
| Selection.RemoveAt | scripts/game.js:94 | splicing out one element keeps the others in order and re-inserting it gives back the original |
| Selection.Deselect | scripts/game.js:90-95 | the token leaves the selection, the others keep their order, only its mark changes, nothing is completed |
| Selection.Complete | scripts/game.js:115-129 | the text joins the completed set (one more), one path of the tokens' centres is appended, every selected token and the tapped one lock, no other mark changes, the selection empties |
| Selection.AddToken | scripts/game.js:96-105 | an unselected tap completes exactly when the candidate text is an open line, is rejected exactly when it is not and is longer than the longest line, and otherwise stays pending; each branch's effect on marks, selection, completed set and paths, and no token outside the selection and the tapped one changes its mark |
| Selection.Reject | scripts/game.js:153-161 | the selection empties, all its tokens shake, every other token keeps its mark, no token is locked or unlocked, nothing is completed |
| Selection.Append | scripts/game.js:97-98 | the token is appended and marked selected, the selection stays within the longest line length |
| Selection.Click | scripts/game.js:87-109 | locked and shaking taps change nothing; a selected token is deselected; otherwise an open line completes regardless of length, else a candidate longer than the longest line is rejected, else it stays pending; the invariant holds and the selection never exceeds the longest line |
| Selection.ShakeEnds | scripts/game.js:156-159 | a shaking token becomes unselected; any other state is unchanged |
| Selection.Frame | scripts/game.js:164-177 | the stored paths are drawn first, stroke i green and exactly `drawLine` of drawable path i, then the live path's `drawLine` last, only when more than one token is selected, through the selected tokens' centres in tap order |
| Selection.ToggleTwiceRestores | scripts/game.js:90-105 | selecting a token and tapping it again restores the session exactly |
| Selection.LineSetSize | scripts/game.js:112 | the distinct line texts are at most the lines, and equally many iff no text repeats |
| Selection.FinishedIffAllLines | scripts/game.js:133 | the completion condition holds iff the lines are distinct and every line text is completed |
| Selection.DuplicateLinesNeverFinish | scripts/game.js:133 | with two equal lines the completion condition can never hold |
| Selection.FinishedIsFinal | scripts/game.js:111-113 | once finished, no tap completes a line and the session stays finished |
| Selection.Handle | scripts/game.js:87-136 | one event keeps the invariant, never shrinks the completed set, signals exactly when it takes the poem from unfinished to finished, never signals on a finished poem, and never unlocks a locked token |
| Selection.Run | scripts/game.js:87-136 | any event sequence keeps the invariant, the completed set only grows, and a locked token stays locked until the poem is reset |
| Selection.RunSignalsOnce | scripts/game.js:133-134 | over any event sequence the completion signal fires once if the poem goes from unfinished to finished, otherwise never, and never after it is finished |
| Selection.OpenLineIffUnfinished | scripts/game.js:111-113 | an open line exists only while the poem is unfinished, and with distinct lines an unfinished poem always has one |
| Puzzle.NewSession | scripts/game.js:279-283 | a fresh session has the poem's board, no marks, an empty selection, completed set and path list, and is not finished |
| Puzzle.NextIndex | scripts/game.js:269 | the next index stays in range, counts up and wraps to 0 after the last poem |
| Puzzle.Start | scripts/game.js:2-9 | the game starts on poem 0 with a fresh session: every token unselected, empty selection, completed set and path list |
| Puzzle.Advance | scripts/game.js:268-277 | the next poem is loaded with its own longest line length and a fully reset session |
| Puzzle.Play | scripts/game.js:87-159 | a tap or a shake timer keeps the game well formed on the same poem, the completed set grows, the signal fires exactly when the poem becomes finished and never on a finished poem, and a timer unshakes its token |
| Puzzle.ShakeOverFreesToken | scripts/game.js:87-105 | a tap on a shaking token changes nothing, and once its timer has fired a tap on it is no longer ignored |
| Puzzle.AdvanceTimesWraps | scripts/game.js:269 | within one round the index counts up and wraps once |
| Puzzle.AdvancePeriodic | scripts/game.js:269 | n more presses always land on the same poem |
| Puzzle.AdvanceCycles | scripts/game.js:269-270 | n presses return to the start and every poem is reached within n presses, in order |
| Scenarios.SpellBothLines | scripts/game.js:97-135 | on "ab"/"ba", taps spelling both lines give two completions, the second one finishing the poem |
| Scenarios.OverlongIsRejected | scripts/game.js:100-104 | on "ab"/"ba", three taps matching no line are rejected together |

## Left out

- DOM construction and querying (`setupPoemInfo`, `setupPoemLines`, grid element creation, `showCompletedLine`'s reveal of the line element): presentation only; token state is the abstract `Mark`.
- Event-listener wiring and the resize handler (`setupEventListeners`, `setupNextPoemButton`, `resizeCanvas`): host glue; taps are explicit calls, and a redraw is the pure `Frame`.
- The 100 ms reveal timer and the 500 ms completion alert: timing only; the alert is the `poemDone` flag of the completing tap.
- Stale shake timers after a poem change: they act on elements that are no longer on the board, so the new session ignores them.
- `getCharacterCenter`: depends on live layout; token centres are the `Layout` input.
- Canvas primitives and styling (line width, caps, shadows, arc markers, `clearRect`): only the segments and their colour are modelled.
- Floating point: coordinates are exact reals, so the midpoint `prev.x + (cur.x - prev.x) * 0.5` is exact.
- `Math.random`: the shuffle's choices are the `picks` input, each in `[0, i]`; uniformity of the shuffle is not modelled.
- The duplicate definitions of `handleGameCompletion` and `setupPoemInfo`: the later ones win in JavaScript and differ only in the next-button `disabled` flag.
- Loading of `POEMS`: a parameter required to be non-empty with at least one line per poem, as `Math.max` over no lines is not a length.
- Characters: a token is one `char`; JavaScript splits into UTF-16 code units, which agree for text in the Basic Multilingual Plane.

=== FILE: board.dfy ===
/**
 The character pool of one poem: the glyphs of all lines joined, the longest
 line length, the Fisher–Yates shuffle that orders the board, and the grid
 column rule. The shuffle's random choices are an input: `picks[i]` is the
 index that `Math.floor(Math.random() * (i + 1))` produced at step `i`.
 */
module Board {

  /** `content.join('')`: every line's characters, line after line. */
  function Concat(lines: seq<string>): string
    decreases |lines|
  {
    if |lines| == 0 then [] else lines[0] + Concat(lines[1..])
  }

  /** The total number of characters in the poem, counted line by line. */
  function SumLengths(lines: seq<string>): nat
    decreases |lines|
  {
    if |lines| == 0 then 0 else |lines[0]| + SumLengths(lines[1..])
  }

  lemma {:induction false} ConcatLength(lines: seq<string>)
    ensures |Concat(lines)| == SumLengths(lines)
    decreases |lines|
  {
    if |lines| > 0 {
      ConcatLength(lines[1..]);
    }
  }

  /** Every character of every line occurs in the joined string. */
  lemma {:induction false} ConcatHoldsEveryLine(lines: seq<string>, i: nat, c: char)
    requires i < |lines| && c in lines[i]
    ensures c in Concat(lines)
    decreases |lines|
  {
    if i > 0 {
      ConcatHoldsEveryLine(lines[1..], i - 1, c);
    }
  }

  /** `Math.max` over the line lengths; the poem has at least one line. */
  function MaxLen(lines: seq<string>): (m: nat)
    requires |lines| > 0
    ensures forall i :: 0 <= i < |lines| ==> |lines[i]| <= m
    ensures exists i :: 0 <= i < |lines| && |lines[i]| == m
    decreases |lines|
  {
    if |lines| == 1 then |lines[0]|
    else
      var rest := MaxLen(lines[1..]);
      if |lines[0]| >= rest then |lines[0]| else rest
  }

  /** The random choices of one shuffle of `n` items: step `i` swaps with an index in `[0, i]`. */
  predicate ValidPicks(picks: seq<nat>, n: nat)
  {
    |picks| == n && forall i :: 0 < i < n ==> picks[i] <= i
  }

  /** `[array[i], array[j]] = [array[j], array[i]]` on a sequence. */
  function Swap<T>(a: seq<T>, i: nat, j: nat): (b: seq<T>)
    requires i < |a| && j < |a|
    ensures |b| == |a| && b[i] == a[j] && b[j] == a[i]
    ensures forall k :: 0 <= k < |a| && k != i && k != j ==> b[k] == a[k]
  {
    a[i := a[j]][j := a[i]]
  }

  lemma SwapPermutes<T>(a: seq<T>, i: nat, j: nat)
    requires i < |a| && j < |a|
    ensures multiset(Swap(a, i, j)) == multiset(a)
  {
  }

  /** The shuffle's remaining steps `i`, `i - 1`, ..., `1`. */
  function ShuffleFrom<T>(a: seq<T>, picks: seq<nat>, i: nat): (b: seq<T>)
    requires i < |a| && ValidPicks(picks, |a|)
    ensures |b| == |a|
    decreases i
  {
    if i == 0 then a else ShuffleFrom(Swap(a, i, picks[i]), picks, i - 1)
  }

  /** Every run of swap steps permutes the items. */
  lemma {:induction false} ShuffleFromPermutes<T>(a: seq<T>, picks: seq<nat>, i: nat)
    requires i < |a| && ValidPicks(picks, |a|)
    ensures multiset(ShuffleFrom(a, picks, i)) == multiset(a)
    decreases i
  {
    if i > 0 {
      SwapPermutes(a, i, picks[i]);
      ShuffleFromPermutes(Swap(a, i, picks[i]), picks, i - 1);
    }
  }

  /** The order `shuffleArray` leaves the items in, for the given random choices. */
  function Shuffled<T>(a: seq<T>, picks: seq<nat>): (b: seq<T>)
    requires ValidPicks(picks, |a|)
    ensures |b| == |a|
    ensures multiset(b) == multiset(a)
  {
    if |a| == 0 then a
    else
      ShuffleFromPermutes(a, picks, |a| - 1);
      ShuffleFrom(a, picks, |a| - 1)
  }

  /** The in-place swap loop of `shuffleArray`, on a fresh array holding a copy of `s`. */
  method ShuffleArray<T>(s: seq<T>, picks: seq<nat>) returns (r: seq<T>)
    requires ValidPicks(picks, |s|)
    ensures r == Shuffled(s, picks)
    ensures multiset(r) == multiset(s)
  {
    if |s| == 0 {
      return s;
    }
    ghost var goal := ShuffleFrom(s, picks, |s| - 1);
    var a := new T[|s|](k requires 0 <= k < |s| => s[k]);
    assert a[..] == s;
    var i := |s| - 1;
    while i > 0
      invariant 0 <= i < a.Length == |s|
      invariant ShuffleFrom(a[..], picks, i) == goal
      decreases i
    {
      var j := picks[i];
      ghost var before := a[..];
      a[i], a[j] := a[j], a[i];
      assert a[..] == Swap(before, i, j);
      i := i - 1;
    }
    r := a[..];
    assert r == goal;
  }

  /** The board as laid out: its glyphs in presentation order and the number of grid columns. */
  datatype Grid = Grid(glyphs: string, columns: nat)

  /** Four columns for at most sixteen tokens, five otherwise. */
  function Columns(total: nat): (c: nat)
    ensures c == 4 || c == 5
    ensures c == 4 <==> total <= 16
  {
    if total <= 16 then 4 else 5
  }

  /** The board of `setupGameBoard`: one token per character of the poem, shuffled. */
  function SetupBoard(lines: seq<string>, picks: seq<nat>): (g: Grid)
    requires ValidPicks(picks, |Concat(lines)|)
    ensures |g.glyphs| == SumLengths(lines)
    ensures multiset(g.glyphs) == multiset(Concat(lines))
    ensures g.columns == 4 <==> |g.glyphs| <= 16
    ensures g.columns == 4 || g.columns == 5
  {
    ConcatLength(lines);
    var glyphs := Shuffled(Concat(lines), picks);
    Grid(glyphs, Columns(|glyphs|))
  }
}

=== FILE: geometry.dfy ===
/**
 Path geometry of the line renderer: how `drawLine` turns an ordered list of
 token centres into a chain of cubic Bézier segments, and the order in which
 `redrawLines` hands paths to it. Coordinates are reals; the canvas calls
 themselves (stroke, fill, shadows, arc markers) are not modelled, only the
 list of segments each call would trace.
 */
module Geometry {

  /** A path, or nothing when there is nothing to draw. */
  datatype Option<+T> = None | Some(value: T)

  /** A point in surface-local coordinates. */
  datatype Point = Point(x: real, y: real)

  /** One cubic segment; it starts where the previous segment (or the path) ended. */
  datatype Segment = Bezier(c1: Point, c2: Point, to: Point)

  /** A path as `moveTo(start)` followed by one `bezierCurveTo` per segment. */
  datatype Path = Path(start: Point, segments: seq<Segment>)

  /** Completed lines are stroked green (`#4CAF50`), the live selection blue (`#2196F3`). */
  datatype Color = Green | Blue

  datatype Stroke = Stroke(path: Path, color: Color)

  /**
   The segment from `prev` to `cur`: both control points sit halfway between
   the two x values, the first at the previous point's height and the second
   at the current point's height, which gives the stepped S-curve.
   */
  function Curve(prev: Point, cur: Point): (s: Segment)
    ensures s.to == cur
    ensures s.c1.x == s.c2.x == (prev.x + cur.x) / 2.0
    ensures s.c1.y == prev.y && s.c2.y == cur.y
    ensures prev.x <= cur.x ==> prev.x <= s.c1.x <= cur.x
    ensures cur.x <= prev.x ==> cur.x <= s.c1.x <= prev.x
  {
    var mx := prev.x + (cur.x - prev.x) * 0.5;
    Bezier(Point(mx, prev.y), Point(mx, cur.y), cur)
  }

  /** The segments joining consecutive points, first to last. */
  function Segments(ps: seq<Point>): (r: seq<Segment>)
    ensures |r| == if |ps| < 2 then 0 else |ps| - 1
    ensures forall i :: 0 <= i < |r| ==> r[i] == Curve(ps[i], ps[i + 1])
    decreases |ps|
  {
    if |ps| < 2 then [] else [Curve(ps[0], ps[1])] + Segments(ps[1..])
  }

  /** The path `drawLine` traces, or nothing when there are fewer than two points. */
  function DrawLine(ps: seq<Point>): (r: Option<Path>)
    ensures r.None? <==> |ps| < 2
    ensures r.Some? ==> r.value.start == ps[0] && |r.value.segments| == |ps| - 1
    ensures r.Some? ==> forall i :: 0 <= i < |ps| - 1 ==> r.value.segments[i] == Curve(ps[i], ps[i + 1])
  {
    if |ps| < 2 then None else Some(Path(ps[0], Segments(ps)))
  }

  /** The points a path passes through: its start, then the end of every segment. */
  function Vertices(p: Path): (vs: seq<Point>)
    ensures |vs| == |p.segments| + 1 && vs[0] == p.start
    ensures forall i :: 0 <= i < |p.segments| ==> vs[i + 1] == p.segments[i].to
  {
    [p.start] + seq(|p.segments|, i requires 0 <= i < |p.segments| => p.segments[i].to)
  }

  /** Drawing a line and reading back its vertices gives the input points, so the path starts at the first and ends at the last. */
  lemma DrawLineVisitsEveryPoint(ps: seq<Point>)
    requires |ps| >= 2
    ensures DrawLine(ps).Some?
    ensures Vertices(DrawLine(ps).value) == ps
    ensures var vs := Vertices(DrawLine(ps).value); vs[0] == ps[0] && vs[|vs| - 1] == ps[|ps| - 1]
  {
    var vs := Vertices(DrawLine(ps).value);
    assert |vs| == |ps|;
    forall i | 0 <= i < |ps|
      ensures vs[i] == ps[i]
    {
      if i > 0 {
        assert vs[i] == Curve(ps[i - 1], ps[i]).to;
      }
    }
  }

  /** The stored paths `drawLine` strokes: those with at least two points, in completion order. */
  function Drawable(paths: seq<seq<Point>>): (r: seq<seq<Point>>)
    ensures |r| <= |paths|
    ensures forall i :: 0 <= i < |r| ==> |r[i]| >= 2
    decreases |paths|
  {
    if |paths| == 0 then []
    else (if |paths[0]| >= 2 then [paths[0]] else []) + Drawable(paths[1..])
  }

  /** A stored path is drawable exactly when it has at least two points. */
  lemma {:induction false} DrawableMembers(paths: seq<seq<Point>>)
    ensures forall p :: p in Drawable(paths) <==> p in paths && |p| >= 2
    decreases |paths|
  {
    if |paths| > 0 {
      var rest := paths[1..];
      DrawableMembers(rest);
      var head := if |paths[0]| >= 2 then [paths[0]] else [];
      assert Drawable(paths) == head + Drawable(rest);
      assert paths == [paths[0]] + rest;
    }
  }

  /**
   The strokes for the stored completed paths: one green stroke per drawable
   path, stroke i tracing drawable path i. A path of fewer than two points
   draws nothing.
   */
  function DrawCompleted(paths: seq<seq<Point>>): (r: seq<Stroke>)
    ensures |r| == |Drawable(paths)|
    ensures forall i :: 0 <= i < |r| ==> r[i].color == Green && Vertices(r[i].path) == Drawable(paths)[i]
    ensures forall i :: 0 <= i < |r| ==> DrawLine(Drawable(paths)[i]) == Some(r[i].path)
    decreases |paths|
  {
    if |paths| == 0 then []
    else
      var head := DrawLine(paths[0]);
      if head.Some? then
        DrawLineVisitsEveryPoint(paths[0]);
        [Stroke(head.value, Green)] + DrawCompleted(paths[1..])
      else DrawCompleted(paths[1..])
  }

  /** Drawing two runs of stored paths one after the other is drawing their concatenation. */
  lemma {:induction false} DrawCompletedAppend(a: seq<seq<Point>>, b: seq<seq<Point>>)
    ensures DrawCompleted(a + b) == DrawCompleted(a) + DrawCompleted(b)
    decreases |a|
  {
    if |a| > 0 {
      assert (a + b)[0] == a[0];
      assert (a + b)[1..] == a[1..] + b;
      DrawCompletedAppend(a[1..], b);
      var head := if |a[0]| >= 2 then [Stroke(DrawLine(a[0]).value, Green)] else [];
      assert DrawCompleted(a) == head + DrawCompleted(a[1..]);
      assert DrawCompleted(a + b) == head + DrawCompleted(a[1..] + b);
    } else {
      assert a + b == b;
    }
  }

  /** A stored path of fewer than two points (a one-character line) leaves the drawing as if it were not stored. */
  lemma DrawCompletedSkipsShort(paths: seq<seq<Point>>, k: nat)
    requires k < |paths| && |paths[k]| < 2
    ensures DrawCompleted(paths) == DrawCompleted(paths[..k] + paths[k + 1..])
  {
    assert paths == paths[..k] + ([paths[k]] + paths[k + 1..]);
    DrawCompletedAppend(paths[..k], [paths[k]] + paths[k + 1..]);
    DrawCompletedAppend([paths[k]], paths[k + 1..]);
    assert DrawCompleted([paths[k]]) == [];
    DrawCompletedAppend(paths[..k], paths[k + 1..]);
  }

  /** When every stored path has at least two points, stroke i traces exactly completed path i. */
  lemma {:induction false} DrawCompletedKeepsOrder(paths: seq<seq<Point>>)
    requires forall k :: 0 <= k < |paths| ==> |paths[k]| >= 2
    ensures Drawable(paths) == paths
    ensures |DrawCompleted(paths)| == |paths|
    ensures forall i :: 0 <= i < |paths| ==> Vertices(DrawCompleted(paths)[i].path) == paths[i]
    decreases |paths|
  {
    if |paths| > 0 {
      var rest := paths[1..];
      assert forall k :: 0 <= k < |rest| ==> rest[k] == paths[k + 1];
      DrawCompletedKeepsOrder(rest);
      assert |paths[0]| >= 2;
      calc {
        Drawable(paths);
        [paths[0]] + Drawable(rest);
        [paths[0]] + rest;
        paths;
      }
    }
  }

  /**
   One full redraw: every completed path first, in completion order, then the
   live selection's path, which is drawn only when it has more than one point.
   */
  function Redraw(completed: seq<seq<Point>>, live: seq<Point>): (r: seq<Stroke>)
    ensures var d := DrawCompleted(completed); |r| == |d| + (if |live| > 1 then 1 else 0) && r[..|d|] == d
    ensures forall i :: 0 <= i < |r| && r[i].color == Blue ==> i == |r| - 1
    ensures (|r| > 0 && r[|r| - 1].color == Blue) <==> |live| > 1
    ensures |live| > 1 ==> Vertices(r[|r| - 1].path) == live && DrawLine(live) == Some(r[|r| - 1].path)
  {
    var done := DrawCompleted(completed);
    if |live| > 1 then
      DrawLineVisitsEveryPoint(live);
      done + [Stroke(DrawLine(live).value, Blue)]
    else done
  }
}

=== FILE: puzzle.dfy ===
/**
 The `Game` object across poems: the catalogue, the current index, and the
 session of the current poem. Starting (the constructor) and `loadNextPoem`
 with `resetGame` build a fresh session; taps go to the session.
 */
module Puzzle {
  import opened Board
  import opened Geometry
  import opened Selection

  datatype Poem = Poem(title: string, author: string, content: seq<string>)

  datatype Game = Game(poems: seq<Poem>, index: nat, session: Session)

  /** The loaded `POEMS`: at least one poem, each with at least one line. */
  predicate ValidCatalog(poems: seq<Poem>)
  {
    |poems| > 0 && forall i :: 0 <= i < |poems| ==> |poems[i].content| > 0
  }

  predicate WfGame(g: Game)
  {
    && ValidCatalog(g.poems)
    && g.index < |g.poems|
    && g.session.lines == g.poems[g.index].content
    && Wf(g.session)
  }

  /**
   A poem's fresh session: `maxLineLength` recomputed, the board rebuilt and
   shuffled with the given choices, no token marked, and `resetGame`'s empty
   selection, completed set and path list.
   */
  function NewSession(lines: seq<string>, picks: seq<nat>): (s: Session)
    requires |lines| > 0 && ValidPicks(picks, |Concat(lines)|)
    ensures Wf(s) && s.lines == lines
    ensures |s.glyphs| == SumLengths(lines) && multiset(s.glyphs) == multiset(Concat(lines))
    ensures forall u :: 0 <= u < |s.marks| ==> s.marks[u] == Unselected
    ensures s.selected == [] && s.completed == {} && s.paths == []
    ensures !Finished(s)
  {
    var board := SetupBoard(lines, picks);
    Session(lines, MaxLen(lines), board.glyphs, seq(|board.glyphs|, _ => Unselected), [], {}, [])
  }

  /** The index after `currentPoemIndex + 1` taken modulo the number of poems. */
  function NextIndex(i: nat, n: nat): (j: nat)
    requires i < n
    ensures j < n
    ensures i < n - 1 ==> j == i + 1
    ensures i == n - 1 ==> j == 0
  {
    (i + 1) % n
  }

  /** The constructor: the first poem, with its board. */
  function Start(poems: seq<Poem>, picks: seq<nat>): (g: Game)
    requires ValidCatalog(poems) && ValidPicks(picks, |Concat(poems[0].content)|)
    ensures WfGame(g) && g.index == 0 && g.poems == poems
    ensures forall u :: 0 <= u < |g.session.marks| ==> g.session.marks[u] == Unselected
    ensures g.session.selected == [] && g.session.completed == {} && g.session.paths == []
  {
    Game(poems, 0, NewSession(poems[0].content, picks))
  }

  /** `loadNextPoem`: move to the next poem cyclically and start it afresh. */
  function Advance(g: Game, picks: seq<nat>): (r: Game)
    requires WfGame(g)
    requires ValidPicks(picks, |Concat(g.poems[NextIndex(g.index, |g.poems|)].content)|)
    ensures WfGame(r) && r.poems == g.poems
    ensures r.index == NextIndex(g.index, |g.poems|)
    ensures r.session.maxLen == MaxLen(r.poems[r.index].content)
    ensures r.session.selected == [] && r.session.completed == {} && r.session.paths == []
    ensures forall u :: 0 <= u < |r.session.marks| ==> r.session.marks[u] == Unselected
  {
    var i := NextIndex(g.index, |g.poems|);
    Game(g.poems, i, NewSession(g.poems[i].content, picks))
  }

  /**
   One event inside the current poem, a tap or the end of a shake timer; the
   poem and its index stay, and the count of completion signals it raised is
   returned with the new game.
   */
  function Play(g: Game, e: Event, layout: Layout): (r: (Game, nat))
    requires WfGame(g) && e.token < |g.session.glyphs|
    ensures WfGame(r.0) && r.0.poems == g.poems && r.0.index == g.index
    ensures g.session.completed <= r.0.session.completed
    ensures r.1 <= 1 && (r.1 == 1 ==> Finished(r.0.session))
    ensures Finished(g.session) ==> r.1 == 0
    ensures !Finished(g.session) && Finished(r.0.session) ==> r.1 == 1
    ensures e.ShakeOver? && g.session.marks[e.token] == Shaking ==> r.0.session.marks[e.token] == Unselected
  {
    var h := Handle(g.session, e, layout);
    (g.(session := h.0), h.1)
  }

  /** A rejected token that has stopped shaking can be tapped again: the tap is no longer ignored. */
  lemma ShakeOverFreesToken(g: Game, t: nat, layout: Layout)
    requires WfGame(g) && t < |g.session.glyphs| && g.session.marks[t] == Shaking
    ensures Play(g, Tap(t), layout).0 == g
    ensures var g' := Play(g, ShakeOver(t), layout).0; Click(g'.session, t, layout).outcome != Ignored
  {
  }

  /** The poem index after `k` presses of the next-poem button. */
  function AdvanceTimes(i: nat, k: nat, n: nat): (j: nat)
    requires i < n
    ensures j < n
    decreases k
  {
    if k == 0 then i else NextIndex(AdvanceTimes(i, k - 1, n), n)
  }

  /** Within one round the index simply counts up, wrapping once past the last poem. */
  lemma {:induction false} AdvanceTimesWraps(i: nat, k: nat, n: nat)
    requires i < n && k <= n
    ensures AdvanceTimes(i, k, n) == if i + k < n then i + k else i + k - n
    decreases k
  {
    if k > 0 {
      AdvanceTimesWraps(i, k - 1, n);
    }
  }

  /** How many presses lead from poem `i` to poem `j`. */
  function Distance(i: nat, j: nat, n: nat): (k: nat)
    requires i < n && j < n
    ensures k < n
  {
    if i <= j then j - i else j + n - i
  }

  /** Pressing next `n` times returns to the same poem, and every poem is reached within `n` presses, in order. */
  lemma AdvanceCycles(i: nat, n: nat)
    requires i < n
    ensures AdvanceTimes(i, n, n) == i
    ensures forall j :: 0 <= j < n ==> AdvanceTimes(i, Distance(i, j, n), n) == j
  {
    AdvanceTimesWraps(i, n, n);
    forall j | 0 <= j < n
      ensures AdvanceTimes(i, Distance(i, j, n), n) == j
    {
      AdvanceTimesWraps(i, Distance(i, j, n), n);
    }
  }

  /** The poem sequence is periodic: `n` more presses land on the same poem. */
  lemma {:induction false} AdvancePeriodic(i: nat, k: nat, n: nat)
    requires i < n
    ensures AdvanceTimes(i, k + n, n) == AdvanceTimes(i, k, n)
    decreases k
  {
    if k == 0 {
      AdvanceCycles(i, n);
    } else {
      AdvancePeriodic(i, k - 1, n);
      assert AdvanceTimes(i, k + n, n) == NextIndex(AdvanceTimes(i, k - 1 + n, n), n);
    }
  }
}

=== FILE: scenarios.dfy ===
/**
 Worked sessions on the two-line poem "ab" / "ba" with the board "abba":
 spelling both lines finishes the poem with exactly one completion signal,
 and three taps that match no line are rejected together.
 */
module Scenarios {
  import opened Board
  import opened Selection

  function TwoLines(): seq<string>
  {
    ["ab", "ba"]
  }

  /** A session on the board a, b, b, a with the given marks, selection and progress. */
  function At(marks: seq<Mark>, selected: seq<nat>, completed: set<string>, paths: seq<seq<Geometry.Point>>): Session
  {
    Session(TwoLines(), 2, "abba", marks, selected, completed, paths)
  }

  lemma TwoLinesFacts()
    ensures MaxLen(TwoLines()) == 2
    ensures Concat(TwoLines()) == "abba"
  {
    var lines := TwoLines();
    assert Concat(lines[1..]) == "ba" + Concat([]);
  }

  function S0(): Session { At([Unselected, Unselected, Unselected, Unselected], [], {}, []) }
  function S1(): Session { At([Selected, Unselected, Unselected, Unselected], [0], {}, []) }
  function S2(layout: Layout): Session { At([Locked, Locked, Unselected, Unselected], [], {"ab"}, [[layout(0), layout(1)]]) }
  function S3(layout: Layout): Session { At([Locked, Locked, Selected, Unselected], [2], {"ab"}, [[layout(0), layout(1)]]) }
  function R2(): Session { At([Selected, Unselected, Unselected, Selected], [0, 3], {}, []) }
  function R3(): Session { At([Shaking, Shaking, Unselected, Shaking], [], {}, []) }

  lemma WfS0() ensures Wf(S0()) { TwoLinesFacts(); }
  lemma WfS1() ensures Wf(S1()) { TwoLinesFacts(); }
  lemma WfS2(layout: Layout) ensures Wf(S2(layout)) { TwoLinesFacts(); }
  lemma WfS3(layout: Layout) ensures Wf(S3(layout)) { TwoLinesFacts(); }
  lemma WfR2() ensures Wf(R2()) { TwoLinesFacts(); }

  lemma LockFirstTwo()
    ensures MarkAll([Selected, Unselected, Unselected, Unselected], [0, 1], Locked) == [Locked, Locked, Unselected, Unselected]
  {
  }

  lemma ShakeThree()
    ensures MarkAll([Selected, Unselected, Unselected, Selected], [0, 3, 1], Shaking) == [Shaking, Shaking, Unselected, Shaking]
  {
  }

  lemma CompleteAb(layout: Layout)
    requires Wf(S1()) && Candidate(S1(), 1) == "ab"
    ensures Complete(S1(), 1, layout) == S2(layout)
  {
    assert S1().selected + [1] == [0, 1];
    LockFirstTwo();
    assert Positions(layout, [0, 1]) == [layout(0), layout(1)];
  }

  /** A tap that leaves the selection pending, in terms of its premises. */
  lemma PendingTap(s: Session, t: nat, layout: Layout)
    requires Wf(s) && t < |s.glyphs| && s.marks[t] == Unselected
    requires !IsOpenLine(s, Candidate(s, t)) && |s.selected| + 1 <= s.maxLen
    ensures Click(s, t, layout) == Step(s.(marks := s.marks[t := Selected], selected := s.selected + [t]), Pending)
  {
  }

  /** A tap that completes a line, in terms of its premises. */
  lemma CompletingTap(s: Session, t: nat, layout: Layout)
    requires Wf(s) && t < |s.glyphs| && s.marks[t] == Unselected
    requires IsOpenLine(s, Candidate(s, t))
    ensures Click(s, t, layout) == Step(Complete(s, t, layout), LineCompleted(Candidate(s, t), |s.completed| + 1 == |s.lines|))
  {
  }

  /** A tap that rejects the selection, in terms of its premises. */
  lemma RejectingTap(s: Session, t: nat, layout: Layout)
    requires Wf(s) && t < |s.glyphs| && s.marks[t] == Unselected
    requires !IsOpenLine(s, Candidate(s, t)) && |s.selected| + 1 > s.maxLen
    ensures Click(s, t, layout) == Step(Reject(s, t), LineRejected)
  {
  }

  lemma Tap1(layout: Layout)
    ensures Wf(S0()) && Click(S0(), 0, layout) == Step(S1(), Pending)
  {
    WfS0();
    assert Candidate(S0(), 0) == "a";
    PendingTap(S0(), 0, layout);
  }

  lemma Tap2(layout: Layout)
    ensures Wf(S1()) && Click(S1(), 1, layout) == Step(S2(layout), LineCompleted("ab", false))
  {
    WfS1();
    assert Candidate(S1(), 1) == "ab";
    CompletingTap(S1(), 1, layout);
    CompleteAb(layout);
  }

  lemma Tap3(layout: Layout)
    ensures Wf(S2(layout)) && Click(S2(layout), 2, layout) == Step(S3(layout), Pending)
  {
    WfS2(layout);
    assert Candidate(S2(layout), 2) == "b";
    PendingTap(S2(layout), 2, layout);
  }

  lemma Tap4(layout: Layout)
    ensures Wf(S3(layout))
    ensures Click(S3(layout), 3, layout).outcome == LineCompleted("ba", true)
    ensures Finished(Click(S3(layout), 3, layout).next)
  {
    WfS3(layout);
    assert Candidate(S3(layout), 3) == "ba";
    CompletingTap(S3(layout), 3, layout);
    assert {"ab"} + {"ba"} == {"ab", "ba"};
  }

  /** Taps on tokens 0, 1, 2, 3 spell "ab" and then "ba": two completions, the second finishing the poem. */
  lemma SpellBothLines(layout: Layout)
    ensures Wf(S0()) && Click(S0(), 0, layout) == Step(S1(), Pending)
    ensures Wf(S1()) && Click(S1(), 1, layout) == Step(S2(layout), LineCompleted("ab", false))
    ensures Wf(S2(layout)) && Click(S2(layout), 2, layout) == Step(S3(layout), Pending)
    ensures Wf(S3(layout)) && Click(S3(layout), 3, layout).outcome == LineCompleted("ba", true)
    ensures Wf(S3(layout)) && Finished(Click(S3(layout), 3, layout).next)
  {
    Tap1(layout);
    Tap2(layout);
    Tap3(layout);
    Tap4(layout);
  }

  lemma Reject1(layout: Layout)
    ensures Wf(S1()) && Click(S1(), 3, layout) == Step(R2(), Pending)
  {
    WfS1();
    assert Candidate(S1(), 3) == "aa";
    PendingTap(S1(), 3, layout);
  }

  lemma Reject2(layout: Layout)
    ensures Wf(R2()) && Click(R2(), 1, layout) == Step(R3(), LineRejected)
  {
    WfR2();
    assert Candidate(R2(), 1) == "aab";
    RejectingTap(R2(), 1, layout);
    assert R2().selected + [1] == [0, 3, 1];
    ShakeThree();
  }

  /** Taps on tokens 0, 3, 1 spell "aa" and then "aab", longer than either line: all three are rejected. */
  lemma OverlongIsRejected(layout: Layout)
    ensures Wf(S0()) && Click(S0(), 0, layout) == Step(S1(), Pending)
    ensures Wf(S1()) && Click(S1(), 3, layout) == Step(R2(), Pending)
    ensures Wf(R2()) && Click(R2(), 1, layout) == Step(R3(), LineRejected)
  {
    Tap1(layout);
    Reject1(layout);
    Reject2(layout);
  }
}

=== FILE: selection.dfy ===
/**
 The tap-driven selection engine of one poem session: `handleCharacterClick`
 with `validateLine`, `handleCorrectLine` and `handleWrongLine`, the timer that
 ends a rejected token's shake, and `redrawLines` as a view of the state.

 Tokens are indices into the board's glyph sequence. The class list of a token
 element is abstracted to one `Mark`: `Selected` is the `selected` class of a
 token in the selection, `Shaking` the `selected` class a rejected token keeps
 until its 500 ms timer fires, `Locked` the `completed` class.
 */
module Selection {
  import opened Board
  import opened Geometry

  /** Token centres as the layout reports them (`getCharacterCenter`). */
  type Layout = nat -> Point

  datatype Mark = Unselected | Selected | Shaking | Locked

  /**
   The mutable state of `Game` for one poem: the poem's lines and their
   `maxLineLength`, the board, each token's mark, `selectedChars` (token
   indices in tap order), `completedLines` (keyed by line text) and the
   positions stored in `completedLinesData`, one list per completion.
   */
  datatype Session = Session(
    lines: seq<string>,
    maxLen: nat,
    glyphs: string,
    marks: seq<Mark>,
    selected: seq<nat>,
    completed: set<string>,
    paths: seq<seq<Point>>)

  /** What one tap did. `poemDone` is the completion signal of `handleGameCompletion`. */
  datatype Outcome =
    | Ignored
    | Deselected
    | Pending
    | LineCompleted(text: string, poemDone: bool)
    | LineRejected

  datatype Step = Step(next: Session, outcome: Outcome)

  predicate Distinct<T(==)>(xs: seq<T>)
  {
    forall i, j :: 0 <= i < j < |xs| ==> xs[i] != xs[j]
  }

  /** The distinct texts among the poem's lines. */
  function LineSet(lines: seq<string>): set<string>
  {
    set l | l in lines
  }

  /** The invariant every reachable session keeps. */
  predicate Wf(s: Session)
  {
    && |s.lines| > 0
    && s.maxLen == MaxLen(s.lines)
    && multiset(s.glyphs) == multiset(Concat(s.lines))
    && |s.marks| == |s.glyphs|
    && (forall k :: 0 <= k < |s.selected| ==> s.selected[k] < |s.glyphs|)
    && Distinct(s.selected)
    && (forall u :: 0 <= u < |s.marks| ==> (s.marks[u] == Selected <==> u in s.selected))
    && |s.selected| <= s.maxLen
    && s.completed <= LineSet(s.lines)
    && |s.paths| == |s.completed|
  }

  /** The parts of a session no tap changes. */
  predicate SameBoard(s: Session, s': Session)
  {
    s'.lines == s.lines && s'.maxLen == s.maxLen && s'.glyphs == s.glyphs && |s'.marks| == |s.marks|
  }

  /** The completion condition of `handleCorrectLine`: as many completed texts as the poem has lines. */
  predicate Finished(s: Session)
  {
    |s.completed| == |s.lines|
  }

  /** The glyphs of the given tokens in tap order (`selectedChars.map(el => el.textContent).join('')`). */
  function Text(glyphs: string, sel: seq<nat>): (w: string)
    requires forall k :: 0 <= k < |sel| ==> sel[k] < |glyphs|
    ensures |w| == |sel|
    ensures forall k :: 0 <= k < |sel| ==> w[k] == glyphs[sel[k]]
  {
    seq(|sel|, k requires 0 <= k < |sel| => glyphs[sel[k]])
  }

  /** The token centres of a selection, in tap order. */
  function Positions(layout: Layout, sel: seq<nat>): (ps: seq<Point>)
    ensures |ps| == |sel|
    ensures forall k :: 0 <= k < |sel| ==> ps[k] == layout(sel[k])
  {
    seq(|sel|, k requires 0 <= k < |sel| => layout(sel[k]))
  }

  /** The text the selection would spell once token `t` is appended. */
  function Candidate(s: Session, t: nat): string
    requires Wf(s) && t < |s.glyphs|
  {
    Text(s.glyphs, s.selected + [t])
  }

  /** `validateLine`: the text is one of the poem's lines and that text is not yet completed. */
  predicate IsOpenLine(s: Session, text: string)
  {
    text in s.lines && text !in s.completed
  }

  /** `Array.prototype.indexOf`: the first position of `t`, or -1. */
  function IndexOf(xs: seq<nat>, t: nat): (k: int)
    ensures -1 <= k < |xs|
    ensures k == -1 <==> t !in xs
    ensures k >= 0 ==> xs[k] == t && t !in xs[..k]
    decreases |xs|
  {
    if |xs| == 0 then -1
    else if xs[0] == t then 0
    else
      var k := IndexOf(xs[1..], t);
      if k == -1 then -1 else k + 1
  }

  /** `splice(k, 1)`: the sequence without its k-th element. */
  function RemoveAt(xs: seq<nat>, k: nat): (r: seq<nat>)
    requires k < |xs| && Distinct(xs)
    ensures |r| == |xs| - 1
    ensures xs == r[..k] + [xs[k]] + r[k..]
    ensures forall u :: u in r <==> u in xs && u != xs[k]
    ensures Distinct(r)
  {
    var r := xs[..k] + xs[k + 1..];
    assert r[..k] == xs[..k] && r[k..] == xs[k + 1..];
    assert xs == xs[..k] + [xs[k]] + xs[k + 1..];
    assert forall u :: u in r ==> u != xs[k] by {
      forall u | u in r
        ensures u != xs[k]
      {
        var i :| 0 <= i < |r| && r[i] == u;
        if i < k { assert r[i] == xs[i]; } else { assert r[i] == xs[i + 1]; }
      }
    }
    r
  }

  /** The marks after giving every token of `sel` the mark `m`. */
  function MarkAll(marks: seq<Mark>, sel: seq<nat>, m: Mark): (r: seq<Mark>)
    ensures |r| == |marks|
    ensures forall k :: 0 <= k < |sel| && sel[k] < |marks| ==> r[sel[k]] == m
    ensures forall u :: 0 <= u < |marks| && u !in sel ==> r[u] == marks[u]
  {
    seq(|marks|, u requires 0 <= u < |marks| => if u in sel then m else marks[u])
  }

  /** Marking the selection and `t` with anything but `Selected` leaves no token selected. */
  lemma MarkAllClears(s: Session, t: nat, m: Mark)
    requires Wf(s) && t < |s.glyphs| && m != Selected
    ensures forall u :: 0 <= u < |s.marks| ==> MarkAll(s.marks, s.selected + [t], m)[u] != Selected
  {
    var sel := s.selected + [t];
    var r := MarkAll(s.marks, sel, m);
    forall u | 0 <= u < |s.marks|
      ensures r[u] != Selected
    {
      if u !in sel {
        assert u !in s.selected;
      }
    }
  }

  /** The deselect branch: token `t`, found at position `k`, leaves the selection. */
  function Deselect(s: Session, t: nat, k: nat): (r: Session)
    requires Wf(s) && t < |s.glyphs| && k < |s.selected| && s.selected[k] == t
    ensures Wf(r) && SameBoard(s, r)
    ensures r.completed == s.completed && r.paths == s.paths
    ensures t !in r.selected && |r.selected| == |s.selected| - 1
    ensures s.selected == r.selected[..k] + [t] + r.selected[k..]
    ensures r.marks == s.marks[t := Unselected]
  {
    var rest := RemoveAt(s.selected, k);
    s.(marks := s.marks[t := Unselected], selected := rest)
  }

  /** The state `handleCorrectLine` leaves behind; `Complete` states what it means. */
  function LockIn(s: Session, t: nat, layout: Layout): Session
    requires Wf(s) && t < |s.glyphs|
  {
    var sel := s.selected + [t];
    s.(completed := s.completed + {Text(s.glyphs, sel)}, paths := s.paths + [Positions(layout, sel)],
       marks := MarkAll(s.marks, sel, Locked), selected := [])
  }

  lemma LockInWf(s: Session, t: nat, layout: Layout)
    requires Wf(s) && t < |s.glyphs| && s.marks[t] == Unselected
    requires IsOpenLine(s, Candidate(s, t))
    ensures Wf(LockIn(s, t, layout))
    ensures |LockIn(s, t, layout).completed| == |s.completed| + 1
  {
    MarkAllClears(s, t, Locked);
  }

  /** `handleCorrectLine`: record the text and the token centres, lock the tokens, empty the selection. */
  function Complete(s: Session, t: nat, layout: Layout): (r: Session)
    requires Wf(s) && t < |s.glyphs| && s.marks[t] == Unselected
    requires IsOpenLine(s, Candidate(s, t))
    ensures Wf(r) && SameBoard(s, r)
    ensures r.completed == s.completed + {Candidate(s, t)} && |r.completed| == |s.completed| + 1
    ensures r.paths == s.paths + [Positions(layout, s.selected + [t])]
    ensures r.selected == []
    ensures forall k :: 0 <= k < |s.selected| ==> r.marks[s.selected[k]] == Locked
    ensures r.marks[t] == Locked
    ensures forall u :: 0 <= u < |s.marks| && u != t && u !in s.selected ==> r.marks[u] == s.marks[u]
  {
    assert (s.selected + [t])[|s.selected|] == t;
    LockInWf(s, t, layout);
    LockIn(s, t, layout)
  }

  /** `handleWrongLine`: the selection is dropped and its tokens shake; nothing is locked. */
  function Reject(s: Session, t: nat): (r: Session)
    requires Wf(s) && t < |s.glyphs| && s.marks[t] == Unselected
    ensures Wf(r) && SameBoard(s, r)
    ensures r.completed == s.completed && r.paths == s.paths
    ensures r.selected == []
    ensures forall k :: 0 <= k < |s.selected| ==> r.marks[s.selected[k]] == Shaking
    ensures r.marks[t] == Shaking
    ensures forall u :: 0 <= u < |s.marks| ==> (r.marks[u] == Locked <==> s.marks[u] == Locked)
    ensures forall u :: 0 <= u < |s.marks| && u != t && u !in s.selected ==> r.marks[u] == s.marks[u]
  {
    var sel := s.selected + [t];
    assert sel[|s.selected|] == t;
    MarkAllClears(s, t, Shaking);
    s.(marks := MarkAll(s.marks, sel, Shaking), selected := [])
  }

  /** The pending branch: `t` joins the selection, which stays within the longest line's length. */
  function Append(s: Session, t: nat): (r: Session)
    requires Wf(s) && t < |s.glyphs| && s.marks[t] == Unselected && |s.selected| + 1 <= s.maxLen
    ensures Wf(r) && SameBoard(s, r)
    ensures r.completed == s.completed && r.paths == s.paths
    ensures r.selected == s.selected + [t]
    ensures r.marks == s.marks[t := Selected]
  {
    s.(marks := s.marks[t := Selected], selected := s.selected + [t])
  }

  /**
   The append branch of `handleCharacterClick`: token `t` joins the selection
   and the candidate text is checked. An open line completes, whatever its
   length; otherwise a candidate longer than the longest line rejects the whole
   selection; otherwise the selection stays pending.
   */
  function AddToken(s: Session, t: nat, layout: Layout): (r: Step)
    requires Wf(s) && t < |s.glyphs| && s.marks[t] == Unselected
    ensures Wf(r.next) && SameBoard(s, r.next)
    ensures s.completed <= r.next.completed
    ensures r.outcome.LineCompleted? || r.outcome == LineRejected || r.outcome == Pending
    ensures r.outcome.LineCompleted? <==> IsOpenLine(s, Candidate(s, t))
    ensures r.outcome.LineCompleted? ==>
      && r.outcome.text == Candidate(s, t)
      && r.outcome.text !in s.completed
      && r.next.completed == s.completed + {r.outcome.text}
      && r.next.paths == s.paths + [Positions(layout, s.selected + [t])]
      && r.next.selected == []
      && (forall k :: 0 <= k < |s.selected| ==> r.next.marks[s.selected[k]] == Locked)
      && r.next.marks[t] == Locked
      && (r.outcome.poemDone <==> Finished(r.next))
    ensures !r.outcome.LineCompleted? ==>
      && r.next.completed == s.completed
      && r.next.paths == s.paths
      && (forall u :: 0 <= u < |s.marks| ==> (r.next.marks[u] == Locked <==> s.marks[u] == Locked))
    ensures r.outcome == LineRejected <==> !IsOpenLine(s, Candidate(s, t)) && |s.selected| + 1 > s.maxLen
    ensures r.outcome == LineRejected ==>
      && r.next.selected == []
      && (forall k :: 0 <= k < |s.selected| ==> r.next.marks[s.selected[k]] == Shaking)
      && r.next.marks[t] == Shaking
    ensures r.outcome == Pending ==> r.next.selected == s.selected + [t] && r.next.marks == s.marks[t := Selected]
    ensures forall u :: 0 <= u < |s.marks| && u != t && u !in s.selected ==> r.next.marks[u] == s.marks[u]
  {
    var text := Candidate(s, t);
    if IsOpenLine(s, text) then
      var next := Complete(s, t, layout);
      Step(next, LineCompleted(text, |next.completed| == |s.lines|))
    else if |text| > s.maxLen then Step(Reject(s, t), LineRejected)
    else Step(Append(s, t), Pending)
  }

  /**
   One `handleCharacterClick` on token `t`. A locked token is ignored; a token
   that carries the `selected` class is removed from the selection if it is in
   it (a shaking token is not, so the tap does nothing); any other token goes
   through `AddToken`.
   */
  function Click(s: Session, t: nat, layout: Layout): (r: Step)
    requires Wf(s) && t < |s.glyphs|
    ensures Wf(r.next) && SameBoard(s, r.next)
    ensures |r.next.selected| <= MaxLen(s.lines)
    ensures s.completed <= r.next.completed
    // Locked and shaking tokens: nothing changes.
    ensures s.marks[t] == Locked || s.marks[t] == Shaking ==> r == Step(s, Ignored)
    // A selected token is taken out, the rest keep their order, no line is completed.
    ensures r.outcome == Deselected <==> s.marks[t] == Selected
    ensures s.marks[t] == Selected ==>
      && t !in r.next.selected
      && (exists k :: 0 <= k <= |r.next.selected| && s.selected == r.next.selected[..k] + [t] + r.next.selected[k..])
      && r.next.marks == s.marks[t := Unselected]
      && r.next.completed == s.completed && r.next.paths == s.paths
    // Otherwise the outcome is decided by the candidate text, a match taking precedence.
    ensures s.marks[t] == Unselected ==> r == AddToken(s, t, layout)
    ensures r.outcome.LineCompleted? <==> s.marks[t] == Unselected && IsOpenLine(s, Candidate(s, t))
    ensures r.outcome == LineRejected <==>
      s.marks[t] == Unselected && !IsOpenLine(s, Candidate(s, t)) && |s.selected| + 1 > s.maxLen
    ensures r.outcome == Pending <==>
      s.marks[t] == Unselected && !IsOpenLine(s, Candidate(s, t)) && |s.selected| + 1 <= s.maxLen
  {
    if s.marks[t] == Locked then Step(s, Ignored)
    else if s.marks[t] == Selected || s.marks[t] == Shaking then
      var k := IndexOf(s.selected, t);
      if k == -1 then Step(s, Ignored) else Step(Deselect(s, t, k), Deselected)
    else AddToken(s, t, layout)
  }

  /** The end of a rejected token's shake timer: its `selected` class goes, so it can be tapped again. */
  function ShakeEnds(s: Session, t: nat): (r: Session)
    requires Wf(s) && t < |s.glyphs|
    ensures Wf(r) && SameBoard(s, r)
    ensures r.selected == s.selected && r.completed == s.completed && r.paths == s.paths
    ensures r.marks[t] != Shaking
    ensures s.marks[t] == Shaking ==> r.marks[t] == Unselected
    ensures s.marks[t] != Shaking ==> r == s
    ensures forall u :: 0 <= u < |s.marks| && u != t ==> r.marks[u] == s.marks[u]
  {
    if s.marks[t] == Shaking then s.(marks := s.marks[t := Unselected]) else s
  }

  /** `redrawLines`: the stored completed paths, then the live selection's path. */
  function Frame(s: Session, layout: Layout): (r: seq<Stroke>)
    ensures var d := DrawCompleted(s.paths); |r| == |d| + (if |s.selected| > 1 then 1 else 0) && r[..|d|] == d
    ensures forall i :: 0 <= i < |Drawable(s.paths)| ==>
      r[i].color == Green && Vertices(r[i].path) == Drawable(s.paths)[i] && DrawLine(Drawable(s.paths)[i]) == Some(r[i].path)
    ensures |s.selected| > 1 ==> DrawLine(Positions(layout, s.selected)) == Some(r[|r| - 1].path)
    ensures (|r| > 0 && r[|r| - 1].color == Blue) <==> |s.selected| > 1
    ensures |s.selected| > 1 ==> Vertices(r[|r| - 1].path) == Positions(layout, s.selected)
    ensures forall i :: 0 <= i < |r| && r[i].color == Blue ==> i == |r| - 1
    ensures |r| <= |s.paths| + 1
  {
    Redraw(s.paths, Positions(layout, s.selected))
  }

  /** Selecting an unselected token and tapping it again restores the session exactly. */
  lemma ToggleTwiceRestores(s: Session, t: nat, layout: Layout)
    requires Wf(s) && t < |s.glyphs|
    requires Click(s, t, layout).outcome == Pending
    ensures Click(Click(s, t, layout).next, t, layout) == Step(s, Deselected)
  {
    var s1 := Click(s, t, layout).next;
    var n := |s.selected|;
    assert t !in s.selected;
    assert s1.selected[n] == t && s1.selected[..n] == s.selected;
    var k := IndexOf(s1.selected, t);
    assert k == n;
    var r := Deselect(s1, t, k);
    assert r.selected == r.selected[..k] + r.selected[k..];
    assert r.selected == s.selected;
    assert r.marks == s.marks;
  }

  /** A poem's distinct line texts are at most its lines, and exactly as many when no text repeats. */
  lemma {:induction false} LineSetSize(lines: seq<string>)
    ensures |LineSet(lines)| <= |lines|
    ensures |LineSet(lines)| == |lines| <==> Distinct(lines)
    decreases |lines|
  {
    if |lines| > 0 {
      var rest := lines[1..];
      LineSetSize(rest);
      assert LineSet(lines) == {lines[0]} + LineSet(rest);
      if lines[0] in rest {
        assert LineSet(lines) == LineSet(rest);
        var j :| 0 <= j < |rest| && rest[j] == lines[0];
        assert lines[0] == lines[j + 1];
      } else {
        assert |LineSet(lines)| == |LineSet(rest)| + 1;
        if Distinct(rest) {
          forall i, j | 0 <= i < j < |lines|
            ensures lines[i] != lines[j]
          {
            assert lines[j] == rest[j - 1];
            if i > 0 {
              assert lines[i] == rest[i - 1];
            }
          }
        }
        if Distinct(lines) {
          forall i, j | 0 <= i < j < |rest|
            ensures rest[i] != rest[j]
          {
            assert rest[i] == lines[i + 1] && rest[j] == lines[j + 1];
          }
        }
      }
    }
  }

  /** The completion condition holds exactly when the lines are distinct and every line text is completed. */
  lemma FinishedIffAllLines(s: Session)
    requires Wf(s)
    ensures |s.completed| <= |s.lines|
    ensures Finished(s) <==> Distinct(s.lines) && s.completed == LineSet(s.lines)
  {
    LineSetSize(s.lines);
    var all := LineSet(s.lines);
    assert |all - s.completed| == |all| - |s.completed|;
    if Finished(s) {
      assert all - s.completed == {};
    }
  }

  /** With a repeated line text the completion condition can never hold. */
  lemma DuplicateLinesNeverFinish(s: Session, i: nat, j: nat)
    requires Wf(s)
    requires i < j < |s.lines| && s.lines[i] == s.lines[j]
    ensures !Finished(s)
  {
    FinishedIffAllLines(s);
  }

  /** Once the poem is finished no tap completes another line, and it stays finished. */
  lemma FinishedIsFinal(s: Session, t: nat, layout: Layout)
    requires Wf(s) && t < |s.glyphs| && Finished(s)
    ensures !Click(s, t, layout).outcome.LineCompleted?
    ensures Finished(Click(s, t, layout).next)
  {
    FinishedIffAllLines(s);
  }

  /** The events a session reacts to: a tap on a token, or the end of a token's shake timer. */
  datatype Event = Tap(token: nat) | ShakeOver(token: nat)

  /** Whether an outcome raises the poem-completion signal. */
  function Signal(o: Outcome): nat
  {
    if o.LineCompleted? && o.poemDone then 1 else 0
  }

  /** One event: the next session and the signals it raised. */
  function Handle(s: Session, e: Event, layout: Layout): (r: (Session, nat))
    requires Wf(s) && e.token < |s.glyphs|
    ensures Wf(r.0) && SameBoard(s, r.0)
    ensures s.completed <= r.0.completed && |r.0.paths| == |r.0.completed|
    ensures r.1 <= 1
    ensures r.1 == 1 ==> Finished(r.0)
    ensures !Finished(s) && Finished(r.0) ==> r.1 == 1
    ensures Finished(s) ==> r.1 == 0 && Finished(r.0)
    ensures forall u :: 0 <= u < |s.marks| && s.marks[u] == Locked ==> r.0.marks[u] == Locked
  {
    match e
    case Tap(t) =>
      var step := Click(s, t, layout);
      // Both arms are the same step; on a finished poem the lemma shows it raises no signal.
      if Finished(s) then FinishedIsFinal(s, t, layout); (step.next, Signal(step.outcome))
      else (step.next, Signal(step.outcome))
    case ShakeOver(t) => (ShakeEnds(s, t), 0)
  }

  predicate EventsFit(evs: seq<Event>, n: nat)
  {
    forall i :: 0 <= i < |evs| ==> evs[i].token < n
  }

  /** A session driven by a sequence of events: the final session and how many completion signals fired. */
  function Run(s: Session, evs: seq<Event>, layout: Layout): (r: (Session, nat))
    requires Wf(s) && EventsFit(evs, |s.glyphs|)
    ensures Wf(r.0) && SameBoard(s, r.0)
    ensures s.completed <= r.0.completed
    ensures forall u :: 0 <= u < |s.marks| && s.marks[u] == Locked ==> r.0.marks[u] == Locked
    decreases |evs|
  {
    if |evs| == 0 then (s, 0)
    else
      var first := Handle(s, evs[0], layout);
      var rest := Run(first.0, evs[1..], layout);
      (rest.0, first.1 + rest.1)
  }

  /**
   Within a session the completion signal fires exactly once when the events
   take an unfinished poem to finished, never otherwise, and never after the
   poem is finished.
   */
  lemma {:induction false} RunSignalsOnce(s: Session, evs: seq<Event>, layout: Layout)
    requires Wf(s) && EventsFit(evs, |s.glyphs|)
    ensures Run(s, evs, layout).1 <= 1
    ensures Run(s, evs, layout).1 == 1 ==> Finished(Run(s, evs, layout).0)
    ensures !Finished(s) && Finished(Run(s, evs, layout).0) ==> Run(s, evs, layout).1 == 1
    ensures Finished(s) ==> Run(s, evs, layout).1 == 0 && Finished(Run(s, evs, layout).0)
    decreases |evs|
  {
    if |evs| > 0 {
      var first := Handle(s, evs[0], layout);
      RunSignalsOnce(first.0, evs[1..], layout);
    }
  }

  /** An open line exists only in an unfinished session; with distinct lines, every unfinished session has one. */
  lemma OpenLineIffUnfinished(s: Session)
    requires Wf(s)
    ensures (exists text :: IsOpenLine(s, text)) ==> !Finished(s)
    ensures Distinct(s.lines) && !Finished(s) ==> exists text :: IsOpenLine(s, text)
  {
    FinishedIffAllLines(s);
    if exists text :: IsOpenLine(s, text) {
      var text :| IsOpenLine(s, text);
      assert text in LineSet(s.lines) - s.completed;
    }
    if Distinct(s.lines) && !Finished(s) {
      var open := LineSet(s.lines) - s.completed;
      assert s.completed != LineSet(s.lines);
      assert open != {} by {
        if open == {} {
          forall x | x in LineSet(s.lines)
            ensures x in s.completed
          {
            assert x !in open;
          }
        }
      }
      var text :| text in open;
      assert IsOpenLine(s, text);
    }
  }
}
